=== FILE: README.md ===
# Personality questionnaire: scoring engine and quiz flow

This project models the core of a small web questionnaire
(`personality_app.py`). A user submits a name, answers Likert-scale questions
one page at a time, and gets five trait totals at the end. Two parts are
modelled:

- **The scoring engine** (`calculate_score`). It folds over the stored
  responses. Each entry's key and value go through Python's `int()`; entries
  that do not parse are skipped. The key indexes the question list, with
  Python's wrap-around for negative indices. A reversed question turns an
  answer `v` into `6 - v`. The result is added to one of five trait totals.
  An index outside the list (`IndexError`) and a trait name outside the five
  (`KeyError`) are modelled faults. They are not ruled out by a precondition.
- **The quiz flow.** The three handlers are pure transitions over a session
  record `{username, questions, question_index, responses}`: start (POST `/`),
  quiz (GET/POST `/quiz`) and result (`/result`). Each returns the new
  session and a response: a redirect, a rendered page, 400, or a server
  error.

The session is an explicit value, not framework state. Each field is `None`
while its key is absent, so the handlers' `session.get(…, default)` reads are
modelled as written. The question list that `load_questions` returns is a
parameter of the start transition. The table reader is a sequence of row
reads, each a row or a failure.

Modules:

- `Wrappers`: `Option` and `Result`.
- `PyInt`: `int()` on text and `str()` on integers.
  - `int()` strips the characters for which `str.isspace()` holds, except
    U+001C..U+001F, which it rejects. It takes an optional sign, and accepts
    digits with single underscores between them.
  - `str()` is decimal text.
  - The round trip `int(str(n)) == n` is proved.
- `PyDict`: an insertion-ordered `dict` with string keys. It is an
  association list whose keys are pairwise distinct. Assigning to an existing
  key keeps its position.
- `Questions`: the five traits, the question record, the row-to-record
  mapping and the load loop.
- `Scoring`: the totals and the scoring fold, with its lemmas.
- `QuizFlow`: the session, the three handlers, and the invariant that the
  handlers preserve.

Behaviour of the code that the model keeps:

- When reading the table fails part-way, `load_questions` returns the records
  built before the failure. The list is empty when the table has no rows or
  when the first read fails, for example when the file is missing.
- A response key outside the question list makes scoring raise. It is not
  skipped.
- A negative stored index is not ruled out. `int()` and Python indexing
  accept it. So the quiz page and scoring both wrap it to the end of the
  list, and an index below `-N` faults. Sessions that the handlers produce
  never hold one (`WellFormed`).
- A second quiz POST sent after the first one's response arrived reads the
  advanced index, so it answers the next question and overwrites nothing.
  Two POSTs sent with the same old session (a double click) both store
  under `str(i)` in the same old responses. The browser keeps the cookie of
  the response that arrives last, which is `QuizFlow.Quiz` of the old
  session with that POST's option. That case is the race listed under
  "Left out". A key stored again one request after another keeps only its
  last value (`PyDict.PutOverwrite`).

## Model

| member | source | states |
|---|---|---|
| `Questions.TraitNamed` | personality_app.py:37-43 | a trait field names a trait exactly when it equals that trait's score key, case-sensitively |
| `Questions.FromRow` | personality_app.py:19-30 | the record keeps the question and trait text; `reverse` is true iff the field is exactly `"True"`; the options are always the five labels keyed "1".."5" |
| `Questions.LoadQuestions` | personality_app.py:16-33 | the loaded list is the prefix of rows read before the first read failure, each mapped by `FromRow`; it is empty when the first read fails |
| `PyInt.ParseShowRoundTrip` | personality_app.py:89 | `int(str(n)) == n` for every integer, so the key stored for question `i` reads back as `i` in scoring |
| `PyInt.ShowInjective` | personality_app.py:89 | distinct question indices are stored under distinct keys |
| `PyInt.ParseIgnoresPadding` | personality_app.py:47-48 | whitespace around a key or value does not change what `int()` reads |
| `PyInt.ParseInt` | personality_app.py:47-48 | Python's `int()` on text; it has no contract of its own. `PyInt.ParseShowRoundTrip` and `PyInt.ParseIgnoresPadding` say what it accepts, and `PyInt.ParseRejectsForeign` says what it rejects |
| `PyInt.ParseRejectsForeign` | personality_app.py:47-50 | text holding any character that is no digit, underscore, sign or stripped whitespace makes `int()` fail, so the entry is skipped |
| `PyInt.ParseOptional` | personality_app.py:48-49 | `int()` of a submitted option that may be `None`, where `int(None)` raises `TypeError`. `Scoring.UnparsableEntryIgnored` states that such an entry is skipped |
| `PyDict.Put` | personality_app.py:89 | after `d[k] = v`, `k` maps to `v`, every other key keeps its value, and the key set grows by `k` only. A new key is appended. An existing key keeps its place, and every position keeps its key |
| `PyDict.PutOverwrite` | personality_app.py:89 | storing twice under one key equals storing once with the last value |
| `Scoring.Contribution` | personality_app.py:56-57 | a plain answer counts as `v`, a reversed one as `6 - v`; an answer in 1..5 contributes 1..5 |
| `Scoring.PyIndex` | personality_app.py:52 | Python's `questions[i]`; it has no contract of its own. `Scoring.PyIndexWraps` characterises it |
| `Scoring.PyIndexWraps` | personality_app.py:52 | indexing finds a question exactly for `-N <= i < N`; a non-negative index finds question `i`, a negative one the question `N + i`, and the question found is in the list |
| `Scoring.EntryEffect` | personality_app.py:45-59 | what one `(key, value)` item does in the loop body; it has no contract of its own. `Scoring.EntryEffectSkip`, `Scoring.EntryEffectAt`, `Scoring.AnswerCredited` and `Scoring.UnscorableEntryFaults` characterise it |
| `Scoring.EntryEffectSkip` | personality_app.py:46-50 | an item whose key or value `int()` rejects is skipped |
| `Scoring.EntryEffectAt` | personality_app.py:52-59 | an item that parses to index `k` and answer `v` looks up question `k` and credits its trait |
| `Scoring.Score` | personality_app.py:36-60 | the outcome of `calculate_score`; it has no contract of its own. `Scoring.CalculateScore`, `Scoring.ScoreIsSum`, `Scoring.ScoreSucceedsIff` and `Scoring.ScoreOrderIndependent` characterise it |
| `Scoring.CalculateScore` | personality_app.py:36-60 | the loop's result equals the in-order fold: the totals, or the fault of the first entry that raises |
| `Scoring.FoldFailurePersists` | personality_app.py:45-59 | once an entry raises, the entries after it do not change the outcome |
| `Scoring.UnparsableResponsesScoreZero` | personality_app.py:37-50 | responses with no parseable entry, the empty mapping among them, score zero on all five traits for any question list |
| `Scoring.FoldInsert` | personality_app.py:45-59 | wherever an entry sits: a skipped entry changes nothing, a credited one adds its amount to its trait only, and one that raises makes scoring fail |
| `Scoring.AnswerCredited` | personality_app.py:52-59 | a parseable answer to an existing question (index in `[-N, N)`, negative counting from the end) with a known trait adds `v` (reversed: `6 - v`) to that trait and leaves the other four totals unchanged |
| `Scoring.UnparsableEntryIgnored` | personality_app.py:45-50 | an entry whose key or value `int()` rejects, a missing option among them, leaves every total unchanged |
| `Scoring.UnscorableEntryFaults` | personality_app.py:52-59 | a parseable answer whose index is outside `[-N, N)`, or whose question names no known trait, makes scoring raise |
| `Scoring.NegativeKeyWraps` | personality_app.py:47-52 | a key `-j` scores exactly like the key `str(N - j)` of a question counted from the end |
| `Scoring.SameQuestionSameEffect` | personality_app.py:47-59 | two keys that `int()` reads as indices naming the same question score alike for any value |
| `Scoring.FoldSucceedsIff` | personality_app.py:45-59 | the fold raises iff its step raises on some entry |
| `Scoring.ScoreSucceedsIff` | personality_app.py:45-59 | scoring raises iff some entry raises |
| `Scoring.FoldFaultFromEntry` | personality_app.py:45-59 | a failed fold reports the fault of one of its entries |
| `Scoring.ScoreFaultFromEntry` | personality_app.py:45-59 | a failed score reports the fault of one of the entries |
| `Scoring.FoldIsSum` | personality_app.py:45-59 | each total of a successful fold is the sum of the amounts credited to its trait |
| `Scoring.ScoreIsSum` | personality_app.py:45-59 | each trait total equals the sum of the per-entry contributions to that trait |
| `Scoring.SumOfConcat` | personality_app.py:45-59 | a sum over two consecutive parts of the entries is the sum of the two parts' sums |
| `Scoring.SumOfPermutation` | personality_app.py:45-59 | a sum over the entries does not depend on their order |
| `Scoring.ScoreOrderIndependent` | personality_app.py:45-59 | any reordering of the same entries succeeds or fails alike, and yields the same totals when it succeeds |
| `Scoring.LikertAnswersInRange` | personality_app.py:21-27 | every option key of the answer scale parses to its position 1..5, so a scale answer contributes between 1 and 5 |
| `QuizFlow.Start` | personality_app.py:64-69 | start stores the submitted name unchanged, the loaded questions, index 0 and empty responses, and yields a well-formed session; a missing name field is a 400 that leaves the session unchanged |
| `QuizFlow.QuestionList` | personality_app.py:74 | `session.get("questions", [])`; it has no contract of its own. The `QuizFlow.Quiz` contract states what the quiz page does with it |
| `QuizFlow.CurrentIndex` | personality_app.py:75-79 | `int(session.get("question_index", 0))` with 0 where `int()` raises; it has no contract of its own. `QuizFlow.StoredIndexReadBack` and `QuizFlow.UnreadableIndexIsZero` characterise it |
| `QuizFlow.StoredIndexReadBack` | personality_app.py:75-77 | an index stored as the integer `n`, or as the text `str(n)`, is read back as `n` |
| `QuizFlow.Quiz` | personality_app.py:73-94 | redirects to the result page iff the index is at least N, without changing the session; faults iff the index is below -N, and then with the `IndexError` of line 84; a GET renders iff `-N <= i < N`, showing the question at the index as number `i+1` of N; a POST in that range stores the option under `str(i)`, overwriting any earlier value, leaves other keys unchanged and sets the index to `i+1` |
| `QuizFlow.UnreadableIndexIsZero` | personality_app.py:75-79 | a missing or null stored index, or text that `int()` rejects, makes the quiz page answer exactly as at index 0, and a POST leaves the same session as at index 0 |
| `QuizFlow.ResultPage` | personality_app.py:96-111 | the result page never writes the session and shows the stored name or "Anonymous". With a question list it renders exactly the scored totals, or fails with the fault scoring raises. Without one it fails with the missing-questions `KeyError` iff some entry parses, and otherwise renders zero totals. No responses means zero totals |
| `QuizFlow.QuizPreservesWellFormed` | personality_app.py:86-91 | each quiz request keeps a well-formed session well-formed, never faults, and advances the index by at most one |
| `QuizFlow.StoredKeyScorable` | personality_app.py:52 | an entry stored under the key of an answered question never faults on the index lookup |
| `QuizFlow.WellFormedResultNeverOutOfRange` | personality_app.py:52 | in a session the handlers produced, the result page never hits an index fault; it renders whenever every question names a known trait |
| `QuizFlow.AnswerAllFrom` | personality_app.py:86-92 | answering the remaining questions one POST at a time stores each answer under its index in order and ends at index N |
| `QuizFlow.AnswersSumToExpected` | personality_app.py:45-59 | the scored totals of a full set of answers equal an independent per-question sum of contributions |
| `QuizFlow.SumOfAnswers` | personality_app.py:45-59 | any per-entry amount that agrees with the reference `AnswerValue` on each stored answer sums to the reference total `ExpectedTotal` |
| `QuizFlow.StoredAnswerCredit` | personality_app.py:47-59 | the answer stored under `str(j)` credits what the reference `AnswerValue` gives for question `j` |
| `QuizFlow.CompletedQuiz` | personality_app.py:62-99 | start then one POST per question ends in a well-formed session that redirects to the result page; with known traits, the result shows the name and each trait's expected sum |
| `QuizFlow.ReversedAnswers` | personality_app.py:56-57 | a reversed question answered "1" contributes 5, and answered "5" contributes 1 |
| `QuizFlow.PlainAnswerFive` | personality_app.py:56-59 | a plain question answered "5" contributes 5 to its own trait and nothing to the others |
| `QuizFlow.ExpectedOfThreeFives` | personality_app.py:45-59 | three plain questions on three different traits, each answered "5", have expected totals 5, 5, 5, 0, 0 |
| `QuizFlow.ThreeTraitsAnsweredFive` | personality_app.py:62-99 | with three plain questions on three different traits, each answered "5", the result shows those traits at 5 and the other two at 0 |

## Left out

- Flask routing, `redirect`/`url_for` and `render_template`: these are framework and template glue. They appear only as the response constructors. The GET of the start page (line 70) only renders the entry form, so it is not modelled.
- Opening and decoding the question file, and the `print` in its `except`: this is file I/O. The reader is a parameter, a sequence of row reads, each a row or a failure.
- Short rows that the CSV reader pads with `None`: the reader belongs to the `csv` library. Each modelled row carries three strings.
- Writing the result to `personalitydata.txt` (lines 103-109): a best-effort file append whose failure is caught. It never changes the response.
- The secret key, the `PORT` variable and `app.run` (lines 8, 113-115): configuration and server startup.
- Two POSTs that race on `question_index`, such as a double click that sends both with the same old session: concurrency is out of scope. Each POST alone is modelled by `QuizFlow.Quiz`. Both store under `str(i)` in the same old responses, and the session kept is the one from the response that arrives last.
- Signing and serialising the session cookie. The serializer may reorder dict keys. The properties that matter do not depend on order: `Scoring.ScoreOrderIndependent` covers scoring, and `QuizFlow.WellFormed` is stated on the key set.
- Non-ASCII decimal digits, which Python's `int()` also accepts, are outside `PyInt.ParseInt`. The length limit that newer Pythons put on `int()` of very long digit strings is also left out.
- `int()` applied to stored index values other than integers, text and null (floats, booleans): the handlers never store them.

=== FILE: pydict.dfy ===
/** A Python `dict` with string keys: an association list in insertion order
    whose keys are pairwise distinct. */
module PyDict {
  import opened Wrappers

  predicate DistinctKeys<V>(d: seq<(string, V)>) {
    forall i, j :: 0 <= i < j < |d| ==> d[i].0 != d[j].0
  }

  type Dict<V> = d: seq<(string, V)> | DistinctKeys(d) witness []

  function Keys<V>(d: seq<(string, V)>): set<string> {
    set i | 0 <= i < |d| :: d[i].0
  }

  /** The position of the first entry under `k`, or `|d|` when there is none. */
  function IndexOf<V>(d: seq<(string, V)>, k: string): (i: nat)
    ensures i <= |d|
    ensures i < |d| ==> d[i].0 == k
    ensures forall j :: 0 <= j < i ==> d[j].0 != k
    decreases |d|
  {
    if |d| == 0 then 0
    else if d[0].0 == k then 0
    else 1 + IndexOf(d[1..], k)
  }

  /** Python's `d.get(k)`. */
  function Get<V>(d: Dict<V>, k: string): (r: Option<V>)
    ensures r.Some? <==> k in Keys(d)
    ensures forall i :: 0 <= i < |d| && d[i].0 == k ==> r == Some(d[i].1)
  {
    var i := IndexOf(d, k);
    if i < |d| then Some(d[i].1) else None
  }

  /** Python's `d[k] = v`: an existing key keeps its position and takes the new
      value, a new key is appended. */
  function Put<V>(d: Dict<V>, k: string, v: V): (r: Dict<V>)
    ensures Keys(r) == Keys(d) + {k}
    ensures Get(r, k) == Some(v)
    ensures forall k' :: k' != k ==> Get(r, k') == Get(d, k')
    ensures k in Keys(d) ==> |r| == |d| && forall i :: 0 <= i < |d| ==> r[i].0 == d[i].0
    ensures k !in Keys(d) ==> r == d + [(k, v)]
  {
    var i := IndexOf(d, k);
    if i < |d| then
      var r := d[i := (k, v)];
      assert Keys(r) == Keys(d) by {
        forall x | x in Keys(d) ensures x in Keys(r) {
          var j :| 0 <= j < |d| && d[j].0 == x;
          assert r[j].0 == x;
        }
      }
      r
    else
      var r := d + [(k, v)];
      assert Keys(r) == Keys(d) + {k} by {
        assert r[|d|].0 == k;
        forall x | x in Keys(d) ensures x in Keys(r) {
          var j :| 0 <= j < |d| && d[j].0 == x;
          assert r[j] == d[j];
        }
      }
      r
  }

  /** Storing twice under one key is storing once with the last value. */
  lemma PutOverwrite<V>(d: Dict<V>, k: string, v1: V, v2: V)
    ensures Put(Put(d, k, v1), k, v2) == Put(d, k, v2)
  {
  }
}

=== FILE: pyint.dfy ===
/** Python's conversions between integers and decimal text, as the application
    uses them: `int(x)` on a session key, a form value or the stored question
    index, and `str(i)` on a question index. */
module PyInt {
  import opened Wrappers

  /** The characters `int()` strips from both ends of its argument: those for
      which `str.isspace()` holds, except U+001C..U+001F. Below U+007F only
      the six ASCII whitespace characters count; above it every `isspace()`
      character does. */
  predicate IsSpace(c: char) {
    var k := c as int;
    || k == 0x20 || 0x09 <= k <= 0x0d
    || k == 0x85 || k == 0xa0 || k == 0x1680 || 0x2000 <= k <= 0x200a
    || k == 0x2028 || k == 0x2029 || k == 0x202f || k == 0x205f || k == 0x3000
  }

  predicate IsDigit(c: char) {
    '0' <= c <= '9'
  }

  /** `s` without its leading whitespace. */
  function TrimLeft(s: string): (r: string)
    ensures |r| <= |s| && r == s[|s| - |r|..]
    ensures |r| > 0 ==> !IsSpace(r[0])
    ensures forall i :: 0 <= i < |s| - |r| ==> IsSpace(s[i])
  {
    if |s| > 0 && IsSpace(s[0]) then TrimLeft(s[1..]) else s
  }

  /** `s` without its trailing whitespace. */
  function TrimRight(s: string): (r: string)
    ensures |r| <= |s| && r == s[..|r|]
    ensures |r| > 0 ==> !IsSpace(r[|r| - 1])
    ensures forall i :: |r| <= i < |s| ==> IsSpace(s[i])
  {
    if |s| > 0 && IsSpace(s[|s| - 1]) then TrimRight(s[..|s| - 1]) else s
  }

  /** Python's `s.strip()`. */
  function Strip(s: string): string {
    TrimRight(TrimLeft(s))
  }

  /** The digits of a base-10 integer as `int()` accepts them: decimal digits,
      with single underscores allowed between two digits (`"1_000"`). */
  predicate IsDigitString(d: string) {
    && |d| > 0 && IsDigit(d[0]) && IsDigit(d[|d| - 1])
    && (forall i :: 0 <= i < |d| ==> IsDigit(d[i]) || d[i] == '_')
    && (forall i :: 0 <= i < |d| - 1 ==> d[i] != '_' || d[i + 1] != '_')
  }

  /** The value of a digit string, underscores ignored. */
  function Magnitude(d: string): nat
    requires forall i :: 0 <= i < |d| ==> IsDigit(d[i]) || d[i] == '_'
    decreases |d|
  {
    if |d| == 0 then 0
    else if d[|d| - 1] == '_' then Magnitude(d[..|d| - 1])
    else
      var c := d[|d| - 1];
      assert IsDigit(c);
      Magnitude(d[..|d| - 1]) * 10 + (c as int - '0' as int)
  }

  /** Python's `int(s)` for a string `s`: `None` where Python raises
      `ValueError`. */
  function ParseInt(s: string): Option<int> {
    var t := Strip(s);
    if |t| > 0 && (t[0] == '+' || t[0] == '-') then
      if IsDigitString(t[1..]) then
        var m: int := Magnitude(t[1..]);
        Some(if t[0] == '-' then -m else m)
      else None
    else if IsDigitString(t) then Some(Magnitude(t))
    else None
  }

  /** Python's `int(x)` for a value that is a string or `None`: `int(None)`
      raises `TypeError`, modelled as `None`. */
  function ParseOptional(x: Option<string>): Option<int> {
    match x
    case None => None
    case Some(s) => ParseInt(s)
  }

  function DigitChar(n: nat): (c: char)
    requires n < 10
    ensures IsDigit(c) && c as int - '0' as int == n
  {
    ('0' as int + n) as char
  }

  /** Python's `str(n)` for a non-negative integer. */
  function ShowNat(n: nat): (r: string)
    ensures |r| > 0
    ensures forall i :: 0 <= i < |r| ==> IsDigit(r[i])
  {
    if n < 10 then [DigitChar(n)] else ShowNat(n / 10) + [DigitChar(n % 10)]
  }

  /** Python's `str(n)` for an integer. */
  function Show(n: int): string {
    if n < 0 then "-" + ShowNat(-n) else ShowNat(n)
  }

  lemma {:induction false} MagnitudeOfShowNat(n: nat)
    ensures Magnitude(ShowNat(n)) == n
    decreases n
  {
    if n >= 10 {
      var r := ShowNat(n);
      assert r[..|r| - 1] == ShowNat(n / 10);
      MagnitudeOfShowNat(n / 10);
    }
  }

  /** Text without whitespace at either end is left alone by `strip()`. */
  lemma StripUnpadded(s: string)
    requires |s| > 0 && !IsSpace(s[0]) && !IsSpace(s[|s| - 1])
    ensures Strip(s) == s
  {
  }

  /** `int(str(n)) == n`: the decimal text of an integer parses back to it. */
  lemma ParseShowRoundTrip(n: int)
    ensures ParseInt(Show(n)) == Some(n)
  {
    var s := Show(n);
    StripUnpadded(s);
    if n < 0 {
      assert s[1..] == ShowNat(-n);
      MagnitudeOfShowNat(-n);
    } else {
      MagnitudeOfShowNat(n);
    }
  }

  /** `str` is injective on integers, so distinct question indices are stored
      under distinct keys. */
  lemma ShowInjective(i: int, j: int)
    ensures Show(i) == Show(j) ==> i == j
  {
    ParseShowRoundTrip(i);
    ParseShowRoundTrip(j);
  }

  /** A character that is no digit, underscore, sign or whitespace makes
      `int()` reject the text, wherever it sits. */
  lemma ParseRejectsForeign(s: string, i: nat)
    requires i < |s| && !IsDigit(s[i]) && s[i] != '_' && s[i] != '+' && s[i] != '-' && !IsSpace(s[i])
    ensures ParseInt(s).None?
  {
    var l := TrimLeft(s);
    var off := |s| - |l|;
    assert off <= i;
    assert l[i - off] == s[i];
    var t := Strip(s);
    assert t == TrimRight(l);
    assert i - off < |t|;
    assert t[i - off] == s[i];
    if |t| > 0 && (t[0] == '+' || t[0] == '-') {
      assert i - off >= 1;
      assert t[1..][i - off - 1] == s[i];
    }
  }

  /** Surrounding whitespace does not change what `int()` reads. */
  lemma {:induction false} ParseIgnoresPadding(pre: string, s: string, post: string)
    requires forall i :: 0 <= i < |pre| ==> IsSpace(pre[i])
    requires forall i :: 0 <= i < |post| ==> IsSpace(post[i])
    ensures ParseInt(pre + s + post) == ParseInt(s)
  {
    StripIgnoresPadding(pre, s, post);
  }

  lemma StripIgnoresPadding(pre: string, s: string, post: string)
    requires forall i :: 0 <= i < |pre| ==> IsSpace(pre[i])
    requires forall i :: 0 <= i < |post| ==> IsSpace(post[i])
    ensures Strip(pre + s + post) == Strip(s)
  {
    assert pre + s + post == pre + (s + post);
    TrimLeftPadded(pre, s + post);
    TrimLeftAppend(s, post);
    if TrimLeft(s + post) == TrimLeft(s) + post {
      TrimRightPadded(TrimLeft(s), post);
    }
  }

  lemma {:induction false} TrimLeftPadded(pre: string, s: string)
    requires forall i :: 0 <= i < |pre| ==> IsSpace(pre[i])
    ensures TrimLeft(pre + s) == TrimLeft(s)
    decreases |pre|
  {
    if |pre| > 0 {
      assert (pre + s)[1..] == pre[1..] + s;
      TrimLeftPadded(pre[1..], s);
    } else {
      assert pre + s == s;
    }
  }

  lemma {:induction false} TrimRightPadded(s: string, post: string)
    requires forall i :: 0 <= i < |post| ==> IsSpace(post[i])
    ensures TrimRight(s + post) == TrimRight(s)
    decreases |post|
  {
    if |post| > 0 {
      assert (s + post)[..|s + post| - 1] == s + post[..|post| - 1];
      TrimRightPadded(s, post[..|post| - 1]);
    } else {
      assert s + post == s;
    }
  }

  lemma {:induction false} TrimLeftAppend(s: string, post: string)
    requires forall i :: 0 <= i < |post| ==> IsSpace(post[i])
    ensures || TrimLeft(s + post) == TrimLeft(s) + post
            || (TrimLeft(s) == [] && TrimLeft(s + post) == [])
    decreases |s|
  {
    if |s| == 0 {
      assert s + post == [] + post;
      TrimLeftPadded(post, []);
      assert post + [] == post;
    } else if IsSpace(s[0]) {
      assert (s + post)[1..] == s[1..] + post;
      TrimLeftAppend(s[1..], post);
    }
  }
}

=== FILE: questions.dfy ===
/** The question store: the five traits, the question record, and how the
    rows of the questions table become question records. */
module Questions {
  import opened Wrappers

  datatype Trait = Extraversion | Agreeableness | Conscientiousness | Neuroticism | Openness

  /** The key under which a trait's total is kept, as it must appear in the
      table's `trait` column (case-sensitive). */
  function TraitName(t: Trait): string {
    match t
    case Extraversion => "Extraversion"
    case Agreeableness => "Agreeableness"
    case Conscientiousness => "Conscientiousness"
    case Neuroticism => "Neuroticism"
    case Openness => "Openness"
  }

  /** The trait a `trait` field names, if it names one of the five exactly. */
  function TraitNamed(name: string): (r: Option<Trait>)
    ensures forall t :: r == Some(t) <==> TraitName(t) == name
  {
    if name == "Extraversion" then Some(Extraversion)
    else if name == "Agreeableness" then Some(Agreeableness)
    else if name == "Conscientiousness" then Some(Conscientiousness)
    else if name == "Neuroticism" then Some(Neuroticism)
    else if name == "Openness" then Some(Openness)
    else None
  }

  /** A question record. `traitName` is kept as the table's raw text: the store
      does not check it, and a name outside the five only fails at scoring. */
  datatype Question = Question(
    text: string,
    options: seq<(string, string)>,
    reverse: bool,
    traitName: string)

  /** The five-point answer scale every question offers, in display order. */
  const LikertOptions: seq<(string, string)> := [
    ("1", "Strongly Disagree"),
    ("2", "Disagree"),
    ("3", "Neutral"),
    ("4", "Agree"),
    ("5", "Strongly Agree")
  ]

  /** The record built from one table row with fields `question`, `reverse`
      and `trait`. */
  function FromRow(question: string, reverse: string, traitName: string): (q: Question)
    ensures q.text == question && q.traitName == traitName
    ensures q.reverse <==> reverse == "True"
    ensures q.options == LikertOptions
    ensures |q.options| == 5 && forall i :: 0 <= i < 5 ==> q.options[i].0 == [('1' as int + i) as char]
  {
    Question(question, LikertOptions, reverse == "True", traitName)
  }

  /** One step of the table reader: a row, or a failure to produce one (the
      file is missing, unreadable or malformed at that point). */
  datatype RowRead = Row(question: string, reverse: string, traitName: string) | ReadError

  /** The question list loaded from the reader's successive results. A failure
      ends the load, and the records already built are kept; when the first
      read fails (no file) the list is empty. */
  method LoadQuestions(rows: seq<RowRead>) returns (qs: seq<Question>)
    ensures |qs| <= |rows|
    ensures forall i :: 0 <= i < |qs| ==>
      rows[i].Row? && qs[i] == FromRow(rows[i].question, rows[i].reverse, rows[i].traitName)
    ensures |qs| < |rows| ==> rows[|qs|].ReadError?
  {
    qs := [];
    var n := 0;
    while n < |rows|
      invariant 0 <= n <= |rows| && |qs| == n
      invariant forall i :: 0 <= i < n ==>
        rows[i].Row? && qs[i] == FromRow(rows[i].question, rows[i].reverse, rows[i].traitName)
    {
      if rows[n].ReadError? {
        return;
      }
      qs := qs + [FromRow(rows[n].question, rows[n].reverse, rows[n].traitName)];
      n := n + 1;
    }
  }
}

=== FILE: quiz_flow.dfy ===
/** The quiz flow: the session the three request handlers share, and the
    transitions the start page, the quiz page and the result page make. */
module QuizFlow {
  import opened Wrappers
  import opened PyInt
  import opened PyDict
  import opened Questions
  import opened Scoring

  /** A value stored under `question_index`. The handlers only ever store
      integers; the other shapes are what `int()` also meets if the session
      was written some other way. */
  datatype IndexValue = IntIndex(i: int) | TextIndex(text: string) | NullIndex

  /** The stored answers: question index as text, to the submitted option. */
  type Responses = Dict<Option<string>>

  /** The session of one browser; a field is `None` while its key is absent. */
  datatype Session = Session(
    username: Option<string>,
    questions: Option<seq<Question>>,
    questionIndex: Option<IndexValue>,
    responses: Option<Responses>)

  /** The session of a browser that has not started a quiz. */
  const NoSession := Session(None, None, None, None)

  datatype Request = HttpGet | HttpPost(option: Option<string>)

  /** What a handler answers with. */
  datatype Response =
    | RedirectQuiz
    | RedirectResult
    | RenderQuestion(question: Question, qno: int, total: nat)
    | RenderResult(username: string, totals: Totals)
    | BadRequest              // a required form field is missing
    | ServerError(fault: Fault)

  /** The session as the handler leaves it, and its response. */
  datatype Handled = Handled(session: Session, response: Response)

  /** `session.get("questions", [])`. */
  function QuestionList(s: Session): seq<Question> {
    s.questions.GetOr([])
  }

  /** `int(session.get("question_index", 0))`, with 0 where `int()` raises. */
  function CurrentIndex(s: Session): int {
    match s.questionIndex
    case None => 0
    case Some(IntIndex(i)) => i
    case Some(TextIndex(text)) => ParseInt(text).GetOr(0)
    case Some(NullIndex) => 0
  }

  /** The keys of the answers to questions `0 .. n-1`. */
  function AnsweredKeys(n: int): set<string> {
    set j | 0 <= j < n :: Show(j)
  }

  /** The sessions the handlers can produce from a start: index `i` within
      `[0, N]` and one answer stored for each of the questions before it. */
  predicate WellFormed(s: Session) {
    && s.username.Some? && s.questions.Some? && s.responses.Some?
    && s.questionIndex.Some? && s.questionIndex.value.IntIndex?
    && 0 <= s.questionIndex.value.i <= |s.questions.value|
    && Keys(s.responses.value) == AnsweredKeys(s.questionIndex.value.i)
  }

  /** POST to the start page. `username` is the form field (`None` when the
      form lacks it, which the framework answers with 400 before the session
      is touched); `loaded` is what the question store returns. */
  function Start(s: Session, username: Option<string>, loaded: seq<Question>): (h: Handled)
    ensures username.None? ==> h == Handled(s, BadRequest)
    ensures username.Some? ==>
      && h.response == RedirectQuiz
      && h.session.username == username
      && h.session.questions == Some(loaded)
      && CurrentIndex(h.session) == 0
      && h.session.responses == Some([])
      && WellFormed(h.session)
  {
    match username
    case None => Handled(s, BadRequest)
    case Some(name) =>
      assert AnsweredKeys(0) == {};
      Handled(Session(Some(name), Some(loaded), Some(IntIndex(0)), Some([])), RedirectQuiz)
  }

  /** A request to the quiz page at the session's current index `i` of `N`
      questions. */
  function Quiz(s: Session, req: Request): (h: Handled)
    ensures h.response == RedirectResult <==> CurrentIndex(s) >= |QuestionList(s)|
    ensures h.response.ServerError? <==> CurrentIndex(s) < -|QuestionList(s)|
    ensures h.response.ServerError? ==> h.response.fault == IndexOutOfRange
    ensures h.response.RedirectQuiz? <==> req.HttpPost? && -|QuestionList(s)| <= CurrentIndex(s) < |QuestionList(s)|
    ensures !h.response.RedirectQuiz? ==> h.session == s
    ensures h.response.RenderQuestion? <==> req.HttpGet? && -|QuestionList(s)| <= CurrentIndex(s) < |QuestionList(s)|
    ensures h.response.RenderQuestion? ==>
      && Some(h.response.question) == PyIndex(QuestionList(s), CurrentIndex(s))
      && h.response.qno == CurrentIndex(s) + 1
      && h.response.total == |QuestionList(s)|
    ensures h.response.RedirectQuiz? ==>
      var i := CurrentIndex(s);
      var before := s.responses.GetOr([]);
      && h.session.responses.Some?
      && Get(h.session.responses.value, Show(i)) == Some(req.option)
      && (forall k :: k != Show(i) ==> Get(h.session.responses.value, k) == Get(before, k))
      && h.session.questionIndex == Some(IntIndex(i + 1))
      && h.session.username == s.username
      && h.session.questions == s.questions
  {
    var questions := QuestionList(s);
    var index := CurrentIndex(s);
    if index >= |questions| then Handled(s, RedirectResult)
    else
      match PyIndex(questions, index)
      case None => Handled(s, ServerError(IndexOutOfRange))
      case Some(current) =>
        match req
        case HttpPost(option) =>
          var responses := s.responses.GetOr([]);
          Handled(
            s.(responses := Some(Put(responses, Show(index), option)),
               questionIndex := Some(IntIndex(index + 1))),
            RedirectQuiz)
        case HttpGet => Handled(s, RenderQuestion(current, index + 1, |questions|))
  }

  /** A missing index, a null one, or text `int()` rejects is read as index
      0: the quiz page answers exactly as it would at index 0, and a POST
      leaves the same session behind. */
  lemma UnreadableIndexIsZero(s: Session, req: Request)
    requires || s.questionIndex.None?
             || s.questionIndex == Some(NullIndex)
             || (s.questionIndex.Some? && s.questionIndex.value.TextIndex?
                 && ParseInt(s.questionIndex.value.text).None?)
    ensures Quiz(s, req).response == Quiz(s.(questionIndex := Some(IntIndex(0))), req).response
    ensures Quiz(s, req).response.RedirectQuiz? ==>
      Quiz(s, req).session == Quiz(s.(questionIndex := Some(IntIndex(0))), req).session
  {
    assert CurrentIndex(s) == 0;
  }

  /** An index stored as the integer `n`, or as its decimal text, is read
      back as `n`. */
  lemma StoredIndexReadBack(s: Session, n: int)
    requires s.questionIndex == Some(IntIndex(n)) || s.questionIndex == Some(TextIndex(Show(n)))
    ensures CurrentIndex(s) == n
  {
    ParseShowRoundTrip(n);
  }

  /** Some entry `int()` accepts in both key and value. */
  predicate HasParsedEntry(responses: seq<Entry>) {
    exists i :: 0 <= i < |responses| && ParseEntry(responses[i]).Some?
  }

  /** A request to the result page. The session is read, never written. */
  function ResultPage(s: Session): (h: Handled)
    ensures h.session == s
    ensures h.response.RenderResult? || h.response.ServerError?
    ensures h.response.RenderResult? ==> h.response.username == s.username.GetOr("Anonymous")
    ensures s.responses.None? ==> h.response == RenderResult(s.username.GetOr("Anonymous"), Zero)
    ensures s.questions.Some? ==>
      (h.response.RenderResult? <==> Score(s.responses.GetOr([]), s.questions.value).Success?)
    ensures s.questions.Some? && h.response.RenderResult? ==>
      h.response.totals == Score(s.responses.GetOr([]), s.questions.value).value
    ensures s.questions.Some? && h.response.ServerError? ==>
      h.response.fault == Score(s.responses.GetOr([]), s.questions.value).error
    ensures s.questions.None? ==> (h.response.ServerError? <==> HasParsedEntry(s.responses.GetOr([])))
    ensures s.questions.None? && h.response.ServerError? ==> h.response.fault == MissingQuestions
    ensures s.questions.None? && h.response.RenderResult? ==> h.response.totals == Zero
  {
    var responses := s.responses.GetOr([]);
    var username := s.username.GetOr("Anonymous");
    match s.questions
    case None =>
      if HasParsedEntry(responses) then Handled(s, ServerError(MissingQuestions))
      else Handled(s, RenderResult(username, Zero))
    case Some(qs) =>
      match Score(responses, qs)
      case Success(totals) => Handled(s, RenderResult(username, totals))
      case Failure(f) => Handled(s, ServerError(f))
  }

  /** Each quiz request keeps a well-formed session well-formed, never faults,
      and moves the index forward by at most one. */
  lemma QuizPreservesWellFormed(s: Session, req: Request)
    requires WellFormed(s)
    ensures WellFormed(Quiz(s, req).session)
    ensures !Quiz(s, req).response.ServerError?
    ensures CurrentIndex(s) <= CurrentIndex(Quiz(s, req).session) <= CurrentIndex(s) + 1
  {
  }

  /** In a well-formed session every stored key names an existing question,
      so the result page never meets an index fault: it renders the totals,
      or fails only on a question whose trait is none of the five. */
  lemma WellFormedResultNeverOutOfRange(s: Session)
    requires WellFormed(s)
    ensures ResultPage(s).response.RenderResult? || ResultPage(s).response.fault.UnknownTrait?
    ensures (forall q :: q in s.questions.value ==> TraitNamed(q.traitName).Some?) ==>
      ResultPage(s).response.RenderResult?
  {
    var responses := s.responses.value;
    var qs := s.questions.value;
    forall e | e in responses
      ensures !EntryEffect(e, qs).Raise? || EntryEffect(e, qs).fault.UnknownTrait?
      ensures (forall q :: q in qs ==> TraitNamed(q.traitName).Some?) ==> !EntryEffect(e, qs).Raise?
    {
      var n :| 0 <= n < |responses| && responses[n] == e;
      assert e.0 in Keys(responses);
      StoredKeyScorable(qs, s.questionIndex.value.i, e);
    }
    ScoreSucceedsIff(responses, qs);
    if Score(responses, qs).Failure? {
      ScoreFaultFromEntry(responses, qs);
    }
  }

  /** An entry stored under the key of an answered question looks up an
      existing question. */
  lemma StoredKeyScorable(qs: seq<Question>, n: int, e: Entry)
    requires n <= |qs| && e.0 in AnsweredKeys(n)
    ensures !EntryEffect(e, qs).Raise? || EntryEffect(e, qs).fault.UnknownTrait?
    ensures (forall q :: q in qs ==> TraitNamed(q.traitName).Some?) ==> !EntryEffect(e, qs).Raise?
  {
    var j :| 0 <= j < n && Show(j) == e.0;
    ParseShowRoundTrip(j);
    assert PyIndex(qs, j) == Some(qs[j]);
    assert qs[j] in qs;
  }

  /** The session after POSTing `options` to the quiz page one by one. */
  function AnswerAll(s: Session, options: seq<Option<string>>): Session
    decreases |options|
  {
    if |options| == 0 then s else AnswerAll(Quiz(s, HttpPost(options[0])).session, options[1..])
  }

  lemma ShowDistinct(n: nat)
    ensures forall i, j :: 0 <= i < j < n ==> Show(i) != Show(j)
  {
    forall i, j | 0 <= i < j < n ensures Show(i) != Show(j) {
      ShowInjective(i, j);
    }
  }

  /** The answers stored after the first `n` questions were answered with
      `options`, in the order they were given. */
  function AnswersUpTo(options: seq<Option<string>>, n: nat): (r: Responses)
    requires n <= |options|
    ensures |r| == n && forall j :: 0 <= j < n ==> r[j] == (Show(j), options[j])
  {
    ShowDistinct(n);
    seq(n, j requires 0 <= j < n => (Show(j), options[j]))
  }

  lemma {:induction false} AnswerAllFrom(s: Session, qs: seq<Question>, options: seq<Option<string>>, k: nat)
    requires |options| == |qs| && k <= |qs|
    requires s.questions == Some(qs)
    requires s.questionIndex == Some(IntIndex(k))
    requires s.responses == Some(AnswersUpTo(options, k))
    ensures AnswerAll(s, options[k..]) ==
      s.(questionIndex := Some(IntIndex(|qs|)), responses := Some(AnswersUpTo(options, |qs|)))
    decreases |qs| - k
  {
    if k == |qs| {
      assert options[k..] == [];
    } else {
      var next := Quiz(s, HttpPost(options[k])).session;
      var before := AnswersUpTo(options, k);
      assert Show(k) !in Keys(before) by {
        ShowDistinct(k + 1);
      }
      assert Put(before, Show(k), options[k]) == AnswersUpTo(options, k + 1);
      assert next == s.(questionIndex := Some(IntIndex(k + 1)), responses := Some(AnswersUpTo(options, k + 1)));
      assert options[k..][1..] == options[k + 1..];
      AnswerAllFrom(next, qs, options, k + 1);
    }
  }

  /** What answer `option` to question `q` adds to trait `t`: an independent
      statement of the scoring rule for one stored answer. */
  function AnswerValue(q: Question, option: Option<string>, t: Trait): int {
    match ParseOptional(option)
    case None => 0
    case Some(v) => if TraitNamed(q.traitName) == Some(t) then Contribution(q, v) else 0
  }

  /** The total trait `t` should reach when questions `0 .. n-1` were answered
      with `options`. */
  function ExpectedTotal(qs: seq<Question>, options: seq<Option<string>>, t: Trait, n: nat): int
    requires n <= |qs| && n <= |options|
  {
    if n == 0 then 0 else ExpectedTotal(qs, options, t, n - 1) + AnswerValue(qs[n - 1], options[n - 1], t)
  }

  /** Summing any `f` that agrees with `AnswerValue` on each stored answer
      gives the reference total. */
  lemma {:induction false} SumOfAnswers(qs: seq<Question>, options: seq<Option<string>>, t: Trait, n: nat, f: Entry -> int)
    requires n <= |qs| && n <= |options|
    requires forall j :: 0 <= j < n ==> f((Show(j), options[j])) == AnswerValue(qs[j], options[j], t)
    ensures SumOf(AnswersUpTo(options, n), f) == ExpectedTotal(qs, options, t, n)
  {
    if n > 0 {
      var r := AnswersUpTo(options, n);
      assert r[..n - 1] == AnswersUpTo(options, n - 1);
      assert r[n - 1] == (Show(n - 1), options[n - 1]);
      SumOfAnswers(qs, options, t, n - 1, f);
    }
  }

  lemma AnswersSumToExpected(qs: seq<Question>, options: seq<Option<string>>, t: Trait, n: nat)
    requires n <= |qs| && n <= |options|
    ensures TraitSum(AnswersUpTo(options, n), qs, t) == ExpectedTotal(qs, options, t, n)
  {
    var f := CreditOf(StepOf(qs), t);
    forall j | 0 <= j < n
      ensures f((Show(j), options[j])) == AnswerValue(qs[j], options[j], t)
    {
      StoredAnswerCredit(qs, j, options[j], t);
    }
    SumOfAnswers(qs, options, t, n, f);
  }

  /** The answer stored under the key of question `j` credits what
      `AnswerValue` says. */
  lemma StoredAnswerCredit(qs: seq<Question>, j: nat, option: Option<string>, t: Trait)
    requires j < |qs|
    ensures Amount(EntryEffect((Show(j), option), qs), t) == AnswerValue(qs[j], option, t)
  {
    ParseShowRoundTrip(j);
    assert PyIndex(qs, j) == Some(qs[j]);
  }

  /** A quiz taken from start to finish: after the start page and one POST per
      question, the quiz page sends the browser to the result page, and when
      every question names a known trait the result shows the submitted name
      and, for each trait, the sum of its questions' contributions. */
  lemma CompletedQuiz(name: string, qs: seq<Question>, options: seq<Option<string>>)
    requires |options| == |qs|
    ensures var s := AnswerAll(Start(NoSession, Some(name), qs).session, options);
      && WellFormed(s)
      && s.responses == Some(AnswersUpTo(options, |qs|))
      && Quiz(s, HttpGet) == Handled(s, RedirectResult)
      && ((forall q :: q in qs ==> TraitNamed(q.traitName).Some?) ==>
            && ResultPage(s).response.RenderResult?
            && ResultPage(s).response.username == name
            && forall t :: ResultPage(s).response.totals.Get(t) == ExpectedTotal(qs, options, t, |qs|))
  {
    var s0 := Start(NoSession, Some(name), qs).session;
    assert AnswersUpTo(options, 0) == [];
    assert options[0..] == options;
    AnswerAllFrom(s0, qs, options, 0);
    var s := AnswerAll(s0, options);
    assert Keys(AnswersUpTo(options, |qs|)) == AnsweredKeys(|qs|) by {
      var r := AnswersUpTo(options, |qs|);
      forall x | x in AnsweredKeys(|qs|) ensures x in Keys(r) {
        var j :| 0 <= j < |qs| && Show(j) == x;
        assert r[j].0 == x;
      }
    }
    if forall q :: q in qs ==> TraitNamed(q.traitName).Some? {
      WellFormedResultNeverOutOfRange(s);
      forall t ensures ResultPage(s).response.totals.Get(t) == ExpectedTotal(qs, options, t, |qs|) {
        ScoreIsSum(AnswersUpTo(options, |qs|), qs, t);
        AnswersSumToExpected(qs, options, t, |qs|);
      }
    }
  }

  /** A reversed question answered "1" adds 5 to its trait, answered "5"
      adds 1. */
  lemma ReversedAnswers(q: Question, t: Trait)
    requires q.reverse && TraitNamed(q.traitName) == Some(t)
    ensures AnswerValue(q, Some("1"), t) == 5
    ensures AnswerValue(q, Some("5"), t) == 1
  {
    ParseShowRoundTrip(1);
    assert Show(1) == "1";
    ParseShowRoundTrip(5);
    assert Show(5) == "5";
    assert ParseOptional(Some("1")) == Some(1);
    assert ParseOptional(Some("5")) == Some(5);
    assert Contribution(q, 1) == 5 && Contribution(q, 5) == 1;
  }

  /** A plain question answered "5" adds 5 to its own trait and nothing to
      the others. */
  lemma PlainAnswerFive(q: Question, t: Trait, u: Trait)
    requires !q.reverse && TraitNamed(q.traitName) == Some(u)
    ensures AnswerValue(q, Some("5"), t) == if u == t then 5 else 0
  {
    ParseShowRoundTrip(5);
    assert Show(5) == "5";
    assert ParseOptional(Some("5")) == Some(5);
    assert Contribution(q, 5) == 5;
  }

  /** The expected totals of three plain questions on three different
      traits, each answered "5". */
  lemma ExpectedOfThreeFives(qs: seq<Question>, options: seq<Option<string>>, t: Trait)
    requires qs == [
      FromRow("q1", "False", "Extraversion"),
      FromRow("q2", "False", "Agreeableness"),
      FromRow("q3", "False", "Conscientiousness")]
    requires options == [Some("5"), Some("5"), Some("5")]
    ensures ExpectedTotal(qs, options, t, 3) == Totals(5, 5, 5, 0, 0).Get(t)
  {
    PlainAnswerFive(qs[0], t, Extraversion);
    PlainAnswerFive(qs[1], t, Agreeableness);
    PlainAnswerFive(qs[2], t, Conscientiousness);
    assert ExpectedTotal(qs, options, t, 1) == AnswerValue(qs[0], options[0], t);
    assert ExpectedTotal(qs, options, t, 2) == ExpectedTotal(qs, options, t, 1) + AnswerValue(qs[1], options[1], t);
    assert ExpectedTotal(qs, options, t, 3) == ExpectedTotal(qs, options, t, 2) + AnswerValue(qs[2], options[2], t);
  }

  /** Three plain questions on three different traits, each answered "5":
      those traits total 5 and the other two stay 0. */
  lemma ThreeTraitsAnsweredFive(name: string, qs: seq<Question>, options: seq<Option<string>>)
    requires qs == [
      FromRow("q1", "False", "Extraversion"),
      FromRow("q2", "False", "Agreeableness"),
      FromRow("q3", "False", "Conscientiousness")]
    requires options == [Some("5"), Some("5"), Some("5")]
    ensures
      var s := AnswerAll(Start(NoSession, Some(name), qs).session, options);
      ResultPage(s).response == RenderResult(name, Totals(5, 5, 5, 0, 0))
  {
    assert forall q :: q in qs ==> TraitNamed(q.traitName).Some?;
    CompletedQuiz(name, qs, options);
    var s := AnswerAll(Start(NoSession, Some(name), qs).session, options);
    var totals := ResultPage(s).response.totals;
    forall t ensures totals.Get(t) == Totals(5, 5, 5, 0, 0).Get(t) {
      ExpectedOfThreeFives(qs, options, t);
    }
    TotalsEqual(totals, Totals(5, 5, 5, 0, 0));
  }
}

=== FILE: scoring.dfy ===
/** The scoring engine: the five trait totals computed from the stored
    responses and the session's question list. */
module Scoring {
  import opened Wrappers
  import opened PyInt
  import opened Questions

  /** One total per trait. */
  datatype Totals = Totals(
    extraversion: int,
    agreeableness: int,
    conscientiousness: int,
    neuroticism: int,
    openness: int)
  {
    function Get(t: Trait): int {
      match t
      case Extraversion => extraversion
      case Agreeableness => agreeableness
      case Conscientiousness => conscientiousness
      case Neuroticism => neuroticism
      case Openness => openness
    }

    /** `score[trait] += n`. */
    function Add(t: Trait, n: int): (r: Totals)
      ensures r.Get(t) == Get(t) + n
      ensures forall u :: u != t ==> r.Get(u) == Get(u)
    {
      match t
      case Extraversion => this.(extraversion := extraversion + n)
      case Agreeableness => this.(agreeableness := agreeableness + n)
      case Conscientiousness => this.(conscientiousness := conscientiousness + n)
      case Neuroticism => this.(neuroticism := neuroticism + n)
      case Openness => this.(openness := openness + n)
    }
  }

  /** The totals every score starts from. */
  const Zero := Totals(0, 0, 0, 0, 0)

  /** Totals that agree on every trait are equal. */
  lemma TotalsEqual(a: Totals, b: Totals)
    requires forall t :: a.Get(t) == b.Get(t)
    ensures a == b
  {
    assert a.Get(Extraversion) == b.Get(Extraversion);
    assert a.Get(Agreeableness) == b.Get(Agreeableness);
    assert a.Get(Conscientiousness) == b.Get(Conscientiousness);
    assert a.Get(Neuroticism) == b.Get(Neuroticism);
    assert a.Get(Openness) == b.Get(Openness);
  }

  /** One item of the stored responses: the key (a question index as text)
      and the submitted option, `None` when the form carried none. */
  type Entry = (string, Option<string>)

  /** The uncaught exceptions scoring can raise. */
  datatype Fault =
    | IndexOutOfRange       // `IndexError` from the question lookup
    | UnknownTrait(name: string)  // `KeyError` from the totals lookup
    | MissingQuestions      // `KeyError`: the session holds no question list

  /** Python's `qs[i]`: a negative index counts from the end; `None` where
      Python raises `IndexError`. */
  function PyIndex(qs: seq<Question>, i: int): Option<Question> {
    if 0 <= i < |qs| then Some(qs[i])
    else if -|qs| <= i < 0 then Some(qs[|qs| + i])
    else None
  }

  /** Python indexing finds a question exactly for `-N <= i < N`: the
      question at `i` for a non-negative index, and for a negative one the
      question `N + i` counted from the front. */
  lemma PyIndexWraps(qs: seq<Question>, i: int)
    ensures PyIndex(qs, i).Some? <==> -|qs| <= i < |qs|
    ensures 0 <= i < |qs| ==> PyIndex(qs, i) == Some(qs[i])
    ensures PyIndex(qs, i).Some? ==> PyIndex(qs, i).value in qs
    ensures -|qs| <= i < 0 ==> PyIndex(qs, i) == PyIndex(qs, |qs| + i)
  {
  }

  /** The question index and the answer value of an entry, when `int()`
      accepts both the key and the value. */
  function ParseEntry(e: Entry): Option<(int, int)> {
    match (ParseInt(e.0), ParseOptional(e.1))
    case (Some(k), Some(v)) => Some((k, v))
    case _ => None
  }

  /** The amount an answer `v` to `q` adds to the question's trait. */
  function Contribution(q: Question, v: int): (c: int)
    ensures !q.reverse ==> c == v
    ensures q.reverse ==> c + v == 6
    ensures 1 <= v <= 5 ==> 1 <= c <= 5
  {
    if q.reverse then 6 - v else v
  }

  /** What one entry does to the running totals. */
  datatype Effect = Skip | Credit(t: Trait, amount: int) | Raise(fault: Fault)

  /** What an answer `v` keyed by index `k` does: look the question up, then
      credit its trait. */
  function EffectAt(qs: seq<Question>, k: int, v: int): Effect {
    match PyIndex(qs, k)
    case None => Raise(IndexOutOfRange)
    case Some(q) =>
      match TraitNamed(q.traitName)
      case None => Raise(UnknownTrait(q.traitName))
      case Some(t) => Credit(t, Contribution(q, v))
  }

  /** What one entry does: skipped unless both its key and its value parse. */
  function EntryEffect(e: Entry, qs: seq<Question>): Effect {
    match ParseEntry(e)
    case None => Skip
    case Some((k, v)) => EffectAt(qs, k, v)
  }

  function Apply(acc: Result<Totals, Fault>, eff: Effect): Result<Totals, Fault> {
    match acc
    case Failure(_) => acc
    case Success(totals) =>
      match eff
      case Skip => acc
      case Credit(t, n) => Success(totals.Add(t, n))
      case Raise(f) => Failure(f)
  }

  /** The outcome of folding `step` over the entries in order, starting from
      zero: the totals, or the fault of the first entry whose step raises. */
  function Fold(entries: seq<Entry>, step: Entry -> Effect): Result<Totals, Fault>
    decreases |entries|
  {
    if |entries| == 0 then Success(Zero)
    else Apply(Fold(entries[..|entries| - 1], step), step(entries[|entries| - 1]))
  }

  /** The scoring step for the question list `qs`. */
  function StepOf(qs: seq<Question>): Entry -> Effect {
    e => EntryEffect(e, qs)
  }

  /** The outcome of `calculate_score` over the entries in iteration order:
      the totals, or the fault of the first entry that raises. */
  function Score(entries: seq<Entry>, qs: seq<Question>): Result<Totals, Fault> {
    Fold(entries, StepOf(qs))
  }

  /** `calculate_score` as the loop it is. */
  method CalculateScore(responses: seq<Entry>, qs: seq<Question>) returns (r: Result<Totals, Fault>)
    ensures r == Score(responses, qs)
  {
    var score := Zero;
    for n := 0 to |responses|
      invariant Fold(responses[..n], StepOf(qs)) == Success(score)
    {
      assert responses[..n + 1][..n] == responses[..n];
      ghost var next := Fold(responses[..n + 1], StepOf(qs));
      assert next == Apply(Success(score), EntryEffect(responses[n], qs));
      var (key, value) := responses[n];
      var index := ParseInt(key);
      var answer := ParseOptional(value);
      if index.None? || answer.None? {
        assert ParseEntry(responses[n]).None?;
        continue;
      }
      assert ParseEntry(responses[n]) == Some((index.value, answer.value));
      var question := PyIndex(qs, index.value);
      if question.None? {
        assert next == Failure(IndexOutOfRange);
        FoldFailurePersists(responses, n + 1, StepOf(qs));
        return Failure(IndexOutOfRange);
      }
      var t := TraitNamed(question.value.traitName);
      var v := answer.value;
      if question.value.reverse {
        v := 6 - v;
      }
      if t.None? {
        assert next == Failure(UnknownTrait(question.value.traitName));
        FoldFailurePersists(responses, n + 1, StepOf(qs));
        return Failure(UnknownTrait(question.value.traitName));
      }
      assert v == Contribution(question.value, answer.value);
      score := score.Add(t.value, v);
    }
    assert responses[..|responses|] == responses;
    return Success(score);
  }

  /** Once an entry has raised, later entries are never reached. */
  lemma {:induction false} FoldFailurePersists(entries: seq<Entry>, n: nat, step: Entry -> Effect)
    requires n <= |entries|
    requires Fold(entries[..n], step).Failure?
    ensures Fold(entries, step) == Fold(entries[..n], step)
    decreases |entries| - n
  {
    if n < |entries| {
      var p := entries[..n + 1];
      assert p[..n] == entries[..n];
      FoldFailurePersists(entries, n + 1, step);
    } else {
      assert entries[..n] == entries;
    }
  }

  /** Entries that all skip leave every total at zero. */
  lemma {:induction false} FoldOfSkipsIsZero(entries: seq<Entry>, step: Entry -> Effect)
    requires forall i :: 0 <= i < |entries| ==> step(entries[i]).Skip?
    ensures Fold(entries, step) == Success(Zero)
    decreases |entries|
  {
    if |entries| > 0 {
      var p := entries[..|entries| - 1];
      assert forall i :: 0 <= i < |p| ==> p[i] == entries[i];
      FoldOfSkipsIsZero(p, step);
    }
  }

  /** Responses none of whose entries parse -- the empty mapping among them --
      score zero on every trait, whatever the question list. */
  lemma UnparsableResponsesScoreZero(entries: seq<Entry>, qs: seq<Question>)
    requires forall i :: 0 <= i < |entries| ==> ParseEntry(entries[i]).None?
    ensures Score(entries, qs) == Success(Zero)
  {
    FoldOfSkipsIsZero(entries, StepOf(qs));
  }

  /** The totals after crediting `n` to trait `t`; a fault is kept. */
  function Credited(r: Result<Totals, Fault>, t: Trait, n: int): Result<Totals, Fault> {
    match r
    case Success(totals) => Success(totals.Add(t, n))
    case Failure(f) => Failure(f)
  }

  /** Adding to the totals in either order gives the same totals. */
  lemma AddCommutes(x: Totals, t1: Trait, n1: int, t2: Trait, n2: int)
    ensures x.Add(t1, n1).Add(t2, n2) == x.Add(t2, n2).Add(t1, n1)
  {
  }

  /** The effect of one entry, wherever it sits among the others: a skipped
      entry changes nothing, a credited one adds its amount to its trait
      alone, and one that raises makes the whole fold fail. */
  lemma {:induction false} FoldInsert(a: seq<Entry>, e: Entry, b: seq<Entry>, step: Entry -> Effect)
    ensures step(e).Skip? ==> Fold(a + [e] + b, step) == Fold(a + b, step)
    ensures step(e).Credit? ==>
      Fold(a + [e] + b, step) == Credited(Fold(a + b, step), step(e).t, step(e).amount)
    ensures step(e).Raise? ==> Fold(a + [e] + b, step).Failure?
    decreases |b|
  {
    var eff := step(e);
    if |b| == 0 {
      assert a + [e] + b == a + [e];
      assert (a + [e])[..|a|] == a;
      assert a + b == a;
    } else {
      var b' := b[..|b| - 1];
      var x := b[|b| - 1];
      assert (a + [e] + b)[..|a + [e] + b| - 1] == a + [e] + b';
      assert (a + [e] + b)[|a + [e] + b| - 1] == x;
      assert (a + b)[..|a + b| - 1] == a + b';
      assert (a + b)[|a + b| - 1] == x;
      FoldInsert(a, e, b', step);
      if eff.Credit? && Fold(a + b', step).Success? && step(x).Credit? {
        AddCommutes(Fold(a + b', step).value, eff.t, eff.amount, step(x).t, step(x).amount);
      }
    }
  }

  /** An answer that parses, to a question that exists (a negative index
      counting from the end) and names a known trait, adds `v` -- or `6 - v` on a reversed question -- to that trait's
      total and leaves the other four alone. */
  lemma AnswerCredited(a: seq<Entry>, e: Entry, b: seq<Entry>, qs: seq<Question>, k: int, v: int, t: Trait)
    requires ParseInt(e.0) == Some(k) && ParseOptional(e.1) == Some(v)
    requires -|qs| <= k < |qs| && TraitNamed(PyIndex(qs, k).value.traitName) == Some(t)
    ensures Score(a + b, qs).Success? <==> Score(a + [e] + b, qs).Success?
    ensures Score(a + b, qs).Success? ==>
      var before := Score(a + b, qs).value;
      var after := Score(a + [e] + b, qs).value;
      && after.Get(t) == before.Get(t) + (if PyIndex(qs, k).value.reverse then 6 - v else v)
      && forall u :: u != t ==> after.Get(u) == before.Get(u)
  {
    FoldInsert(a, e, b, StepOf(qs));
  }

  /** An entry whose key or value `int()` rejects -- a `None` value from a
      missing option among them -- leaves every total as it was. */
  lemma UnparsableEntryIgnored(a: seq<Entry>, e: Entry, b: seq<Entry>, qs: seq<Question>)
    requires ParseInt(e.0).None? || ParseOptional(e.1).None?
    ensures Score(a + [e] + b, qs) == Score(a + b, qs)
  {
    FoldInsert(a, e, b, StepOf(qs));
  }

  /** An answer keyed by an index outside `[-|qs|, |qs|)`, or to a question
      whose trait is none of the five, makes scoring raise. */
  lemma UnscorableEntryFaults(a: seq<Entry>, e: Entry, b: seq<Entry>, qs: seq<Question>, k: int)
    requires ParseInt(e.0) == Some(k) && ParseOptional(e.1).Some?
    requires !(-|qs| <= k < |qs|) || TraitNamed(PyIndex(qs, k).value.traitName).None?
    ensures Score(a + [e] + b, qs).Failure?
  {
    FoldInsert(a, e, b, StepOf(qs));
  }

  /** A negative key `-j` scores exactly as the key of question `|qs| - j`
      would: Python's wrap-around of negative indices. */
  lemma NegativeKeyWraps(key: string, value: Option<string>, qs: seq<Question>, k: int)
    requires ParseInt(key) == Some(k) && -|qs| <= k < 0
    ensures EntryEffect((key, value), qs) == EntryEffect((Show(|qs| + k), value), qs)
  {
    ParseShowRoundTrip(|qs| + k);
    assert PyIndex(qs, k) == PyIndex(qs, |qs| + k);
    SameQuestionSameEffect(key, Show(|qs| + k), value, qs, k, |qs| + k);
  }

  /** Two keys that look up the same question score alike. */
  lemma SameQuestionSameEffect(key1: string, key2: string, value: Option<string>, qs: seq<Question>, k1: int, k2: int)
    requires ParseInt(key1) == Some(k1) && ParseInt(key2) == Some(k2)
    requires PyIndex(qs, k1) == PyIndex(qs, k2)
    ensures EntryEffect((key1, value), qs) == EntryEffect((key2, value), qs)
  {
    match ParseOptional(value)
    case None =>
      EntryEffectSkip((key1, value), qs);
      EntryEffectSkip((key2, value), qs);
    case Some(v) =>
      EntryEffectAt((key1, value), qs, k1, v);
      EntryEffectAt((key2, value), qs, k2, v);
  }

  lemma EntryEffectSkip(e: Entry, qs: seq<Question>)
    requires ParseInt(e.0).None? || ParseOptional(e.1).None?
    ensures EntryEffect(e, qs) == Skip
  {
  }

  lemma EntryEffectAt(e: Entry, qs: seq<Question>, k: int, v: int)
    requires ParseInt(e.0) == Some(k) && ParseOptional(e.1) == Some(v)
    ensures EntryEffect(e, qs) == EffectAt(qs, k, v)
  {
    assert ParseEntry(e) == Some((k, v));
  }

  /** A fold raises exactly when the step raises on some entry. */
  lemma {:induction false} FoldSucceedsIff(entries: seq<Entry>, step: Entry -> Effect)
    ensures Fold(entries, step).Success? <==> forall e :: e in entries ==> !step(e).Raise?
    decreases |entries|
  {
    if |entries| > 0 {
      var p := entries[..|entries| - 1];
      assert entries == p + [entries[|entries| - 1]];
      FoldSucceedsIff(p, step);
    }
  }

  /** Scoring raises exactly when some entry raises. */
  lemma ScoreSucceedsIff(entries: seq<Entry>, qs: seq<Question>)
    ensures Score(entries, qs).Success? <==> forall e :: e in entries ==> !EntryEffect(e, qs).Raise?
  {
    FoldSucceedsIff(entries, StepOf(qs));
  }

  /** A raised fold carries the fault of one of the entries. */
  lemma {:induction false} FoldFaultFromEntry(entries: seq<Entry>, step: Entry -> Effect)
    requires Fold(entries, step).Failure?
    ensures exists i :: 0 <= i < |entries| && step(entries[i]) == Raise(Fold(entries, step).error)
    decreases |entries|
  {
    var n := |entries| - 1;
    var p := entries[..n];
    var eff := step(entries[n]);
    assert Fold(entries, step) == Apply(Fold(p, step), eff);
    if Fold(p, step).Failure? {
      FoldFaultFromEntry(p, step);
      var i :| 0 <= i < |p| && step(p[i]) == Raise(Fold(p, step).error);
      assert p[i] == entries[i];
    } else {
      assert eff == Raise(Fold(entries, step).error);
    }
  }

  /** A raised score carries the fault of one of the entries. */
  lemma ScoreFaultFromEntry(entries: seq<Entry>, qs: seq<Question>)
    requires Score(entries, qs).Failure?
    ensures exists i :: 0 <= i < |entries| && EntryEffect(entries[i], qs) == Raise(Score(entries, qs).error)
  {
    FoldFaultFromEntry(entries, StepOf(qs));
  }

  /** The amount an effect credits to trait `t`. */
  function Amount(eff: Effect, t: Trait): int {
    if eff.Credit? && eff.t == t then eff.amount else 0
  }

  /** The sum of `f` over the elements of `s`. */
  function SumOf<T>(s: seq<T>, f: T -> int): int
    decreases |s|
  {
    if |s| == 0 then 0 else SumOf(s[..|s| - 1], f) + f(s[|s| - 1])
  }

  lemma {:induction false} SumOfConcat<T>(a: seq<T>, b: seq<T>, f: T -> int)
    ensures SumOf(a + b, f) == SumOf(a, f) + SumOf(b, f)
    decreases |b|
  {
    if |b| == 0 {
      assert a + b == a;
    } else {
      var ab := a + b;
      assert ab[..|ab| - 1] == a + b[..|b| - 1];
      assert ab[|ab| - 1] == b[|b| - 1];
      SumOfConcat(a, b[..|b| - 1], f);
    }
  }

  /** Taking the element at `j` out of `b` leaves the rest of its multiset. */
  lemma MultisetRemove<T>(b: seq<T>, j: nat)
    requires j < |b|
    ensures multiset(b[..j] + b[j + 1..]) == multiset(b) - multiset{b[j]}
  {
    assert b == b[..j] + [b[j]] + b[j + 1..];
    assert multiset(b) == multiset(b[..j]) + multiset{b[j]} + multiset(b[j + 1..]);
  }

  /** Taking the element at `j` out of `b` removes `f(b[j])` from the sum. */
  lemma {:induction false} SumOfRemove<T>(b: seq<T>, j: nat, f: T -> int)
    requires j < |b|
    ensures SumOf(b, f) == SumOf(b[..j] + b[j + 1..], f) + f(b[j])
    decreases |b|
  {
    var n := |b| - 1;
    var c := b[..n];
    if j == n {
      assert b[..j] + b[j + 1..] == c;
    } else {
      SumOfRemove(c, j, f);
      var rest := b[..j] + b[j + 1..];
      assert rest[..|rest| - 1] == c[..j] + c[j + 1..];
      assert rest[|rest| - 1] == b[n];
      assert c[j] == b[j];
    }
  }

  lemma {:induction false} SumOfPermutation<T>(a: seq<T>, b: seq<T>, f: T -> int)
    requires multiset(a) == multiset(b)
    ensures SumOf(a, f) == SumOf(b, f)
    decreases |a|
  {
    if |a| > 0 {
      var a' := a[..|a| - 1];
      var x := a[|a| - 1];
      assert a == a' + [x];
      assert multiset(a') == multiset(a) - multiset{x};
      assert x in multiset(b);
      var j :| 0 <= j < |b| && b[j] == x;
      MultisetRemove(b, j);
      SumOfRemove(b, j, f);
      SumOfPermutation(a', b[..j] + b[j + 1..], f);
    } else {
      assert b == [];
    }
  }

  /** The amount a step credits to trait `t`. */
  function CreditOf(step: Entry -> Effect, t: Trait): Entry -> int {
    e => Amount(step(e), t)
  }

  /** The sum of the amounts the entries credit to trait `t`. */
  function TraitSum(entries: seq<Entry>, qs: seq<Question>, t: Trait): int {
    SumOf(entries, CreditOf(StepOf(qs), t))
  }

  /** Each total of a successful fold is the sum of the amounts credited to
      its trait. */
  lemma {:induction false} FoldIsSum(entries: seq<Entry>, step: Entry -> Effect, t: Trait)
    ensures Fold(entries, step).Success? ==> Fold(entries, step).value.Get(t) == SumOf(entries, CreditOf(step, t))
    decreases |entries|
  {
    if |entries| > 0 {
      FoldIsSum(entries[..|entries| - 1], step, t);
    }
  }

  /** Each total is the sum of its trait's per-entry contributions. */
  lemma ScoreIsSum(entries: seq<Entry>, qs: seq<Question>, t: Trait)
    ensures Score(entries, qs).Success? ==> Score(entries, qs).value.Get(t) == TraitSum(entries, qs, t)
  {
    FoldIsSum(entries, StepOf(qs), t);
  }

  /** The totals do not depend on the order the entries are visited in:
      any reordering of the same entries fails or succeeds alike, and when it
      succeeds it yields the same totals. */
  lemma ScoreOrderIndependent(a: seq<Entry>, b: seq<Entry>, qs: seq<Question>)
    requires multiset(a) == multiset(b)
    ensures Score(a, qs).Success? <==> Score(b, qs).Success?
    ensures Score(a, qs).Success? ==> Score(a, qs) == Score(b, qs)
  {
    ScoreSucceedsIff(a, qs);
    ScoreSucceedsIff(b, qs);
    assert forall e :: e in a <==> e in b by {
      forall e ensures e in a <==> e in b {
        assert e in a <==> e in multiset(a);
        assert e in b <==> e in multiset(b);
      }
    }
    if Score(a, qs).Success? {
      forall t ensures Score(a, qs).value.Get(t) == Score(b, qs).value.Get(t) {
        ScoreIsSum(a, qs, t);
        ScoreIsSum(b, qs, t);
        SumOfPermutation(a, b, CreditOf(StepOf(qs), t));
      }
      TotalsEqual(Score(a, qs).value, Score(b, qs).value);
    }
  }

  /** The key of the `i`-th scale option is the text of `i + 1`. */
  lemma LikertKey(i: nat)
    requires i < 5
    ensures LikertOptions[i].0 == Show(i + 1)
  {
    if i == 0 { assert LikertOptions[0].0 == "1" == Show(1); }
    else if i == 1 { assert LikertOptions[1].0 == "2" == Show(2); }
    else if i == 2 { assert LikertOptions[2].0 == "3" == Show(3); }
    else if i == 3 { assert LikertOptions[3].0 == "4" == Show(4); }
    else { assert LikertOptions[4].0 == "5" == Show(5); }
  }

  /** Every option of the answer scale is read back by `int()` as its
      position 1..5, so a scale answer contributes between 1 and 5. */
  lemma LikertAnswersInRange(q: Question, i: nat)
    requires q.options == LikertOptions && i < 5
    ensures ParseInt(q.options[i].0) == Some(i + 1)
    ensures 1 <= Contribution(q, i + 1) <= 5
  {
    LikertKey(i);
    ParseShowRoundTrip(i + 1);
  }
}

=== FILE: wrappers.dfy ===
/** The failure-carrying datatypes the rest of the model uses: `Option` for a
    value Python may lack (`None`, a failed `int()`), `Result` for a computation
    that may end in an uncaught exception. */
module Wrappers {

  datatype Option<+T> = None | Some(value: T) {

    /** The value inside `Some`, or `default` -- Python's `d.get(key, default)`. */
    function GetOr(default: T): T {
      match this
      case Some(v) => v
      case None => default
    }
  }

  datatype Result<+R, +E> = Success(value: R) | Failure(error: E)
}
